=== FILE: README.md ===
# Layerswap swap fee calculator, in Dafny

This project models the fee and amount calculator of the Layerswap web
front end (`lib/fees.ts`). The calculator is a set of pure functions. Each
takes the swap form (chosen currency, source layer `from`, destination
layer `to`, entered amount, refuel toggle) and reference data, and
returns one of these values:

- the withdrawal fee an exchange charges;
- the whole-dollar amount to authorise (the USD value plus 2%, rounded up);
- the refuel amounts in the swapped and the native currency;
- whether the deposit step can be skipped (a "sweepless" transfer);
- the Layerswap fee;
- the amount the user receives;
- the smallest and largest amounts a swap may carry.

A layer is a network or a centralised exchange. Missing data never
raises an error. It gives 0, or leaves a fallback unchanged.

Files:

- `wrappers.dfy`: `Option`, the model's `undefined`.
- `numeric.dfy`: the numeric primitives over exact reals. It holds
  `Math.ceil`, `Number(x.toFixed(d))`, the `roundDecimals` helper and
  `x.toFixed().length`. Their error bounds, decimal places, monotonicity
  and digit counts are proved here.
- `models.dfy`: the records (layer, fee schedule, network, currency, swap
  form). It also holds the settings-helper lookups and `Array.prototype.find`.
- `fees.dfy`: the eight operations of `lib/fees.ts`.
- `fees_properties.dfy`: lemmas that relate several operations, and worked
  examples.

Behaviour of the code that the model keeps:

- `CalculateFee` calls `CanDoSweeplessTransfer` without addresses. Two
  absent addresses compare equal, so the deposit fee is waived for every
  source that is not an exchange, whatever its chain type. The contract of
  `Fees.CalculateFee` states this outright.
- `CalculateMinAllowedAmount` adds the two base fees a second time, on
  top of the fee that already contains them.
- When either layer does not list the currency, that sum is not a number.
  `roundDecimals(NaN) || 0` then gives 0, and the model returns 0 in that
  case too.
- So a source layer that does not list the currency makes the minimum 0,
  while the refuel toward the destination is still deducted. An accepted
  amount can then give a negative receive amount:
  `FeeProperties.ReceiveExampleMissingSourceSchedule` shows 1 unit becoming
  -9 after a refuel of 10.
- In `CalculateMaxAllowedAmount` a missing `minAllowedAmount` makes every
  comparison with it false. A passed-in balance then never lowers the
  ceiling, and the wallet-balance branch is never taken.
- Without a currency, `toFixed(undefined)` rounds the receive amount to
  whole units.
- The Coinbase withdrawal fee is added to the minimum only for the
  exchange whose internal name is Coinbase, not for every OAuth2 exchange.

## Model

| member | source | states |
|---|---|---|
| `Fees.GetExchangeFee` | lib/fees.ts:10-14 | 0 for an absent layer or a layer that is not an exchange; 0 when no listing matches the asset; otherwise the withdrawal fee of the first listing of the asset |
| `Fees.CalculateMinimalAuthorizeAmount` | lib/fees.ts:15-17 | the whole-dollar amount to authorise: the least whole number not below the USD value plus 2%; for non-negative price and amount it is non-negative and at least the USD value |
| `Fees.CalculateRefuelAmount` | lib/fees.ts:19-47 | with the settings lookups `Models.GetDefaultNetwork` and `Models.GetNetworkCurrency` as per-layer tables: both amounts are non-negative; (0, 0) unless refuel is on end to end (requested, destination not an exchange, listing refuel-enabled, positive budget, positive prices of the swapped currency and of the first native-currency record); when on, both are positive and each times its USD price gives back the USD budget |
| `Fees.CanDoSweeplessTransfer` | lib/fees.ts:49-57 | never from an exchange; always from a non-exchange EVM or Starknet layer; with no addresses, exactly when the source is not an exchange; with one address only, exactly for non-exchange EVM/Starknet; with two, for non-exchange layers that are EVM/Starknet or whose addresses agree up to case |
| `Fees.LowerCaseMatches` | lib/fees.ts:51 | two lower-cased addresses are equal exactly when the addresses agree letter by letter up to case |
| `Fees.CalculateFee` | lib/fees.ts:59-80 | with `Models.GetNetworkCurrency` as a per-layer table keyed by asset: 0 when currency, source or destination is missing, or either layer lacks the currency; otherwise both base fees plus the destination withdrawal fee, plus the source deposit fee exactly when the source is an exchange |
| `Fees.CalculateMinAllowedAmount` | lib/fees.ts:128-154 | 0 when currency, source or destination is missing, or either layer lacks the currency; otherwise within half a unit of 1.2 times the floor (fee, Coinbase withdrawal fee as `Fees.CoinbaseWithdrawalFee` takes it from `Models.GetDefaultAsset`, exchange minimum deposit, base fees again, refuel), with at most as many decimals as `usd_price.toFixed()` has characters |
| `Fees.CalculateReceiveAmount` | lib/fees.ts:82-104 | 0 for a missing or zero amount and for an amount strictly below the minimum (the test is inclusive); otherwise within half a unit of the amount less fee, refuel and, from an OAuth2 exchange, the exchange fee, a tie going to the larger magnitude, with at most the currency's precision in decimals |
| `Fees.CalculateMaxAllowedAmount` | lib/fees.ts:106-126 | the ceiling is `Fees.WithdrawalCeiling`, the destination's maximum withdrawal for the currency or 0; 0 without currency, source or destination; a malformed balances string leaves the ceiling unchanged; with a parsed balance of the asset that is non-zero and above the minimum the result is the smaller of the ceiling and that balance, and with any other parsed balances it is the ceiling; without balances, a non-zero wallet balance within [minimum, ceiling] gives balance minus gas and anything else gives the ceiling; with non-negative gas the ceiling is never exceeded |
| `Fees.NativeCurrencyOf` | lib/fees.ts:30-33 | none when the layer names no network for the asset; a found record is the network's native currency, and it is the first such record of the currency list |
| `Fees.ExchangeMinDeposit` | lib/fees.ts:142-146 | never negative; the destination exchange's minimum deposit for the asset when it is positive, 0 otherwise and for a destination that is not an exchange |
| `Models.FindIndex` | lib/fees.ts:13 | `find` stops at the first element that passes the test; when it finds none, no element passes |
| `Models.Find` | lib/fees.ts:33 | `find` returns nothing exactly when no element passes the test; an element it returns passes the test and is the one at the first passing position |
| `Numeric.Ceil` | lib/fees.ts:16 | `Math.ceil` gives a whole number n with x <= n < x + 1 |
| `Numeric.ToFixed` | lib/fees.ts:100 | `Number(x.toFixed(d))` lies in (x - 10^-d/2, x + 10^-d/2] for x >= 0 and in [x - 10^-d/2, x + 10^-d/2) for x < 0, so a tie goes to the larger magnitude, and has at most d decimals |
| `Numeric.RoundDecimals` | lib/fees.ts:153 | `roundDecimals(x, d)` lies in (x - 10^-d/2, x + 10^-d/2] and has at most d decimals |
| `Numeric.FixedLength` | lib/fees.ts:153 | `x.toFixed().length` is the minus sign (for negative x) plus the digit count k of the rounded magnitude n: 10^(k-1) <= n < 10^k, or k = 1 when n is 0 |
| `Numeric.ToFixedMonotone` | lib/fees.ts:100 | `toFixed` rounding preserves order |
| `Numeric.RoundHalfUpError` | lib/fees.ts:153 | half-up rounding to d decimals, which `roundDecimals` is and which `toFixed` applies to the magnitude, differs from x by at most half of 10^-d |
| `Numeric.RoundHalfUpHasDecimals` | lib/fees.ts:153 | half-up rounding to d decimals leaves at most d decimals |
| `Numeric.RoundHalfUpIdempotent` | lib/fees.ts:153 | rounding an already rounded value again to the same decimals changes nothing |
| `Numeric.RoundHalfUpMonotone` | lib/fees.ts:153 | `roundDecimals` preserves order |
| `Numeric.RoundHalfUpNonNegative` | lib/fees.ts:153 | `roundDecimals` of a non-negative value is non-negative |
| `Numeric.DecimalDigitsBounds` | lib/fees.ts:153 | a positive integer with k digits lies in [10^(k-1), 10^k) |
| `FeeProperties.FeeNonNegative` | lib/fees.ts:59-80 | with non-negative fee schedules the Layerswap fee is non-negative |
| `FeeProperties.ExchangeFeeNonNegative` | lib/fees.ts:10-14 | with non-negative listing fees the exchange fee is non-negative |
| `FeeProperties.MinCoversFeeAndRefuel` | lib/fees.ts:136-153 | when both layers list the currency, with non-negative fee schedules the minimum exceeds 1.2 times (fee + refuel), less half a unit of its decimals |
| `FeeProperties.AcceptedAmountLeavesMargin` | lib/fees.ts:87-92 | when both layers list the currency, with non-negative fee schedules an accepted amount from a non-exchange source leaves more than 0.2 times (fee + refuel) before rounding, less half a unit of the minimum's decimals |
| `FeeProperties.ReceiveNeverAboveAmount` | lib/fees.ts:89-100 | with non-negative fee schedules the receive amount is 0 or at most the entered amount shown with the same precision |
| `FeeProperties.MinAllowedAmountAlreadyRounded` | lib/fees.ts:153 | rounding the minimum again to its decimals leaves it unchanged |
| `FeeProperties.ReceiveZeroUnlessAccepted` | lib/fees.ts:84-103 | a non-zero receive amount implies a non-zero amount no smaller than the minimum |
| `FeeProperties.SweeplessSymmetric` | lib/fees.ts:51 | exchanging the two addresses does not change the sweepless answer |
| `FeeProperties.SweeplessExampleIgnoresCase` | lib/fees.ts:51 | "0xABC" and "0xabc" make a transfer from a non-EVM network sweepless |
| `FeeProperties.FeeExampleEvmWaivesDeposit` | lib/fees.ts:72-79 | from an EVM network a deposit fee of 5 is waived: zero base fees and a withdrawal fee of 2 give a fee of 2 |
| `FeeProperties.ReceiveExampleAfterFee` | lib/fees.ts:85-100 | 100 units with a fee of 3, no refuel and precision 2: the minimum is 6 and the user receives 97 |
| `FeeProperties.MaxExampleBalanceLowersCeiling` | lib/fees.ts:116-117 | with a withdrawal limit of 10, a passed-in balance of 5 above a minimum of 1 gives 5; without a minimum the limit of 10 stays |
| `FeeProperties.ReceiveExampleMissingSourceSchedule` | lib/fees.ts:87-100 | price 1, precision 2, a source without the currency and a refuel budget of 10 USD: the minimum is 0, the amount 1 is accepted and the user receives -9 |

## Left out

- Everything around the calculator: React/Next.js pages and components, data fetching, the API client, analytics, error reporting and the Coinbase withdrawal flow. They call the calculator or show its results.
- Floating point: amounts are exact reals. Rounding error, overflow to infinity and binary representation are not modelled.
- NaN and `undefined` fields: every record field is total. An absent `gas` or fee field, which makes the source produce NaN, is not modelled. Two cases are modelled: an amount that is not a number (`amount` is `None`), and a layer that lacks the currency in the minimum amount, which gives 0.
- `helpers/settingsHelper` is not part of this model. `GetNetworkCurrency`, `GetDefaultAsset` and `GetDefaultNetwork` are lookups in per-layer tables keyed by asset symbol. The model does not capture how the real helpers derive their answers from a layer.
- `components/utils/RoundDecimals` is not part of this model. `roundDecimals(x, d)` is taken to round to the nearest multiple of 10^-d, halves upwards. It is also assumed to turn NaN into NaN.
- `toFixed` is modelled on exact reals, with the magnitude rounded half up and the sign restored. Its exponent notation for magnitudes of 10^21 and more is not modelled. Neither is its range error for more than 100 digits. `toFixed().length` therefore counts plain digits only.
- `JSON.parse` and `upperCaseKeys` are not modelled. The balances argument arrives already parsed: absent, malformed, or a map keyed by upper-cased asset. A JSON value that is not an object counts as malformed or as an empty map. Balance values are taken to be numbers.
- `toLowerCase` lowers ASCII letters only. Unicode case mapping is not modelled.
- `lib/knownIds` is not part of this model. The Coinbase internal name is taken to be "COINBASE".
- The unused `allNetworks` parameter of `CalculateFee`, `CalculateReceiveAmount` and `CalculateMinAllowedAmount` is dropped.
- An absent form object (`values || {}`) is not modelled separately. It behaves like a form whose fields are all absent.
- `isExchange` is a boolean, so an absent flag is not modelled. An absent flag would count as "not an exchange" under `!layer.isExchange`, but not under `isExchange == false`.

=== FILE: fees.dfy ===
/**
 * The swap fee and amount calculator: the exchange withdrawal fee, the
 * whole-dollar amount to authorise, the refuel amounts, whether a deposit
 * step can be skipped, the Layerswap fee, the amount the user receives,
 * and the smallest and largest amounts a swap may carry.
 *
 * Every operation is a pure function of the swap form and reference data;
 * missing data gives 0 (or the unchanged fallback), never an error.
 */
module Fees {
  import opened Wrappers
  import opened Numeric
  import opened Models

  /** The internal name of the Coinbase exchange integration. */
  const CoinbaseInternalName: string := "COINBASE"

  /** The authorisation flow of exchanges that are reached through OAuth2. */
  const OAuth2Flow: string := "o_auth2"

  /** The safety margin the minimum amount is inflated by. */
  const MinAmountMargin: real := 1.2

  /** The share added on top of the USD value of the amount to authorise. */
  const AuthorizeSurcharge: real := 0.02

  // -----------------------------------------------------------------------
  // Exchange withdrawal fee
  // -----------------------------------------------------------------------

  /**
   * The withdrawal fee an exchange charges for `asset`: the fee of the first
   * listing of the asset on an exchange layer, and 0 for anything else.
   */
  function GetExchangeFee(asset: Option<string>, layer: Option<Layer>): (fee: real)
    ensures layer.None? || !layer.value.isExchange ==> fee == 0.0
    ensures layer.Some? && (forall j :: 0 <= j < |layer.value.assets| ==> Some(layer.value.assets[j].asset) != asset)
      ==> fee == 0.0
    ensures layer.Some? && layer.value.isExchange ==>
      forall i :: IsFirstMatch(layer.value.assets, ListsAsset(asset), i) ==> fee == layer.value.assets[i].withdrawalFee
  {
    if layer.None? || !layer.value.isExchange then 0.0
    else
      match Find(layer.value.assets, ListsAsset(asset))
      case None => 0.0
      case Some(listing) => listing.withdrawalFee  // a zero fee is 0 under `|| 0` too
  }

  // -----------------------------------------------------------------------
  // Amount to authorise
  // -----------------------------------------------------------------------

  /**
   * The whole-dollar amount to authorise for `amount` units at `usdPrice`:
   * the USD value plus 2%, rounded up.
   */
  function CalculateMinimalAuthorizeAmount(usdPrice: real, amount: real): (dollars: int)
    ensures var value := usdPrice * amount;
      value + value * AuthorizeSurcharge <= dollars as real < value + value * AuthorizeSurcharge + 1.0
    ensures usdPrice >= 0.0 && amount >= 0.0 ==> dollars >= 0 && dollars as real >= usdPrice * amount
  {
    Ceil(usdPrice * amount + usdPrice * amount * AuthorizeSurcharge)
  }

  // -----------------------------------------------------------------------
  // Refuel
  // -----------------------------------------------------------------------

  /** A refuel expressed in the swapped currency and in the destination's native currency. */
  datatype RefuelAmount = RefuelAmount(inSelectedCurrency: real, inNativeCurrency: real)

  const NoRefuel: RefuelAmount := RefuelAmount(0.0, 0.0)

  /**
   * The currency record of the native currency of the network that `asset`
   * travels over on `layer` (`allCurrencies.find(c => c.asset == network?.native_currency)`).
   */
  function NativeCurrencyOf(layer: Layer, asset: string, allCurrencies: seq<Currency>): (r: Option<Currency>)
    ensures asset !in layer.defaultNetworks ==> r.None?
    ensures r.Some? ==> asset in layer.defaultNetworks && r.value.asset == layer.defaultNetworks[asset].nativeCurrency
    ensures asset in layer.defaultNetworks ==>
      forall i :: IsFirstMatch(allCurrencies, IsCurrency(Some(layer.defaultNetworks[asset].nativeCurrency)), i)
        ==> r == Some(allCurrencies[i])
  {
    var network := GetDefaultNetwork(layer, asset);
    Find(allCurrencies, IsCurrency(if network.Some? then Some(network.value.nativeCurrency) else None))
  }

  /**
   * Refuel is on end to end: asked for, towards a network (not an exchange)
   * whose listing of the currency allows it, with a positive USD budget, and
   * with positive USD prices for both the swapped and the native currency.
   */
  ghost predicate RefuelEnabledEndToEnd(values: SwapFormValues, allCurrencies: seq<Currency>) {
    && values.currency.Some? && values.to.Some? && values.refuel
    && var asset, to := values.currency.value.asset, values.to.value;
    && !to.isExchange
    && asset in to.networkCurrencies && to.networkCurrencies[asset].isRefuelEnabled
    && asset in to.defaultNetworks && to.defaultNetworks[asset].refuelAmountInUsd > 0.0
    && values.currency.value.usdPrice > 0.0
    && (exists i :: IsFirstMatch(allCurrencies, IsCurrency(Some(to.defaultNetworks[asset].nativeCurrency)), i)
                  && allCurrencies[i].usdPrice > 0.0)
  }

  /**
   * The destination network's refuel budget converted into the swapped
   * currency and into the native currency; nothing unless refuel is on end
   * to end.
   */
  function CalculateRefuelAmount(values: SwapFormValues, allCurrencies: seq<Currency>): (r: RefuelAmount)
    ensures r.inSelectedCurrency >= 0.0 && r.inNativeCurrency >= 0.0
    ensures !RefuelEnabledEndToEnd(values, allCurrencies) ==> r == NoRefuel
    ensures RefuelEnabledEndToEnd(values, allCurrencies) ==>
      var currency, to := values.currency.value, values.to.value;
      var budget := to.defaultNetworks[currency.asset].refuelAmountInUsd;
      && r.inSelectedCurrency > 0.0 && r.inNativeCurrency > 0.0
      && r.inSelectedCurrency * currency.usdPrice == budget
      && forall i :: IsFirstMatch(allCurrencies, IsCurrency(Some(to.defaultNetworks[currency.asset].nativeCurrency)), i)
           ==> r.inNativeCurrency * allCurrencies[i].usdPrice == budget
  {
    if values.currency.None? || values.to.None? || !values.refuel then NoRefuel
    else
      var currency, to := values.currency.value, values.to.value;
      var network := GetDefaultNetwork(to, currency.asset);
      var listing := GetNetworkCurrency(to, currency.asset);
      var native := NativeCurrencyOf(to, currency.asset, allCurrencies);
      if listing.None? || native.None? then NoRefuel
      else
        assert network.Some?;
        var budget := network.value.refuelAmountInUsd;
        if !to.isExchange && listing.value.isRefuelEnabled && budget > 0.0
          && currency.usdPrice > 0.0 && native.value.usdPrice > 0.0
        then RefuelAmount(budget / currency.usdPrice, budget / native.value.usdPrice)
        else NoRefuel
  }

  // -----------------------------------------------------------------------
  // Sweepless transfers
  // -----------------------------------------------------------------------

  /** `toLowerCase` on one character (ASCII letters only). */
  function LowerChar(c: char): char {
    if 'A' <= c <= 'Z' then (c as int + 32) as char else c
  }

  /** `s?.toLowerCase()`. */
  function LowerCase(s: Option<string>): Option<string> {
    match s
    case None => None
    case Some(t) => Some(seq(|t|, i requires 0 <= i < |t| => LowerChar(t[i])))
  }

  /** a and b spell the same address when letter case is ignored. */
  predicate SameIgnoringCase(a: string, b: string) {
    |a| == |b| && forall i :: 0 <= i < |a| ==> LowerChar(a[i]) == LowerChar(b[i])
  }

  /**
   * A transfer from `sourceLayer` can skip the deposit step: the source is a
   * network (not an exchange) and either runs EVM or Starknet, or the two
   * addresses agree up to case (two omitted addresses agree).
   */
  function CanDoSweeplessTransfer(sourceLayer: Layer, sourceAddress: Option<string>, destinationAddress: Option<string>): (r: bool)
    ensures sourceLayer.isExchange ==> !r
    ensures !sourceLayer.isExchange && sourceLayer.layerType in {EVM, Starknet} ==> r
    ensures sourceAddress.None? && destinationAddress.None? ==> (r <==> !sourceLayer.isExchange)
    ensures sourceAddress.Some? != destinationAddress.Some? ==>
      (r <==> !sourceLayer.isExchange && sourceLayer.layerType in {EVM, Starknet})
    ensures sourceAddress.Some? && destinationAddress.Some? ==>
      (r <==> !sourceLayer.isExchange
              && (sourceLayer.layerType in {EVM, Starknet} || SameIgnoringCase(sourceAddress.value, destinationAddress.value)))
  {
    var sameAddress := LowerCase(sourceAddress) == LowerCase(destinationAddress);
    var r := !sourceLayer.isExchange && (sourceLayer.layerType in [EVM, Starknet] || sameAddress);
    if sourceAddress.Some? && destinationAddress.Some? then
      LowerCaseMatches(sourceAddress.value, destinationAddress.value);
      r
    else r
  }

  /** Lower-cased addresses are equal exactly when the addresses agree up to case. */
  lemma LowerCaseMatches(a: string, b: string)
    ensures LowerCase(Some(a)) == LowerCase(Some(b)) <==> SameIgnoringCase(a, b)
  {
    var la, lb := LowerCase(Some(a)).value, LowerCase(Some(b)).value;
    if la == lb {
      assert |a| == |la| == |lb| == |b|;
      forall i | 0 <= i < |a| ensures LowerChar(a[i]) == LowerChar(b[i]) {
        assert la[i] == lb[i];
      }
    }
    if SameIgnoringCase(a, b) {
      assert la == lb;
    }
  }

  // -----------------------------------------------------------------------
  // Layerswap fee
  // -----------------------------------------------------------------------

  /** The source layer's fee schedule for the chosen currency. */
  function SourceSchedule(values: SwapFormValues): Option<NetworkCurrency>
    requires HasRoute(values)
  {
    GetNetworkCurrency(values.from.value, values.currency.value.asset)
  }

  /** The destination layer's fee schedule for the chosen currency. */
  function DestinationSchedule(values: SwapFormValues): Option<NetworkCurrency>
    requires HasRoute(values)
  {
    GetNetworkCurrency(values.to.value, values.currency.value.asset)
  }

  /** Both layers list the chosen currency. */
  predicate HasSchedules(values: SwapFormValues)
    requires HasRoute(values)
  {
    SourceSchedule(values).Some? && DestinationSchedule(values).Some?
  }

  /**
   * The Layerswap fee: both base fees plus the destination's withdrawal
   * fee, plus the source's deposit fee unless the transfer is sweepless.
   * As no addresses are passed, the deposit fee is charged exactly when
   * the source is an exchange.
   */
  function CalculateFee(values: SwapFormValues): (fee: real)
    ensures !HasRoute(values) ==> fee == 0.0
    ensures HasRoute(values) && !HasSchedules(values) ==> fee == 0.0
    ensures HasRoute(values) && HasSchedules(values) ==>
      var source, destination := SourceSchedule(values).value, DestinationSchedule(values).value;
      fee == source.sourceBaseFee + destination.destinationBaseFee + destination.withdrawalFee
             + (if values.from.value.isExchange then source.depositFee else 0.0)
  {
    if !HasRoute(values) then 0.0
    else
      var source, destination := SourceSchedule(values), DestinationSchedule(values);
      if destination.None? || source.None? then 0.0
      else
        var baseFee := source.value.sourceBaseFee + destination.value.destinationBaseFee;
        var withdrawalFee := destination.value.withdrawalFee;
        var depositFee := if CanDoSweeplessTransfer(values.from.value, None, None) then 0.0 else source.value.depositFee;
        withdrawalFee + depositFee + baseFee
  }

  // -----------------------------------------------------------------------
  // Minimum allowed amount
  // -----------------------------------------------------------------------

  /** The Coinbase default-asset withdrawal fee, when the source is the Coinbase exchange. */
  function CoinbaseWithdrawalFee(values: SwapFormValues): (fee: real)
    requires HasRoute(values)
    ensures var from, asset := values.from.value, values.currency.value.asset;
      if from.internalName == CoinbaseInternalName && from.isExchange && asset in from.defaultAssets
      then fee == from.defaultAssets[asset].withdrawalFee
      else fee == 0.0
  {
    var from := values.from.value;
    if from.internalName == CoinbaseInternalName && from.isExchange then
      match GetDefaultAsset(from, values.currency.value.asset)
      case Some(listing) => listing.withdrawalFee
      case None => 0.0
    else 0.0
  }

  /** The destination exchange's minimum deposit, when it declares a positive one. */
  function ExchangeMinDeposit(values: SwapFormValues): (deposit: real)
    requires HasRoute(values)
    ensures deposit >= 0.0
    ensures var to, asset := values.to.value, values.currency.value.asset;
      if to.isExchange && asset in to.defaultAssets && to.defaultAssets[asset].minDepositAmount > 0.0
      then deposit == to.defaultAssets[asset].minDepositAmount
      else deposit == 0.0
  {
    var to := values.to.value;
    if to.isExchange then
      match GetDefaultAsset(to, values.currency.value.asset)
      case Some(listing) => if listing.minDepositAmount > 0.0 then listing.minDepositAmount else 0.0
      case None => 0.0
    else 0.0
  }

  /**
   * The floor before the margin: the fee, the Coinbase withdrawal fee, the
   * exchange minimum deposit, both base fees once more and the refuel.
   */
  function MinAmountBeforeMargin(values: SwapFormValues, allCurrencies: seq<Currency>): real
    requires HasRoute(values) && HasSchedules(values)
  {
    var source, destination := SourceSchedule(values).value, DestinationSchedule(values).value;
    CalculateFee(values)
    + CoinbaseWithdrawalFee(values)
    + ExchangeMinDeposit(values)
    + (source.sourceBaseFee + destination.destinationBaseFee)
    + CalculateRefuelAmount(values, allCurrencies).inSelectedCurrency
  }

  /** The decimals the minimum is rounded to: the length of `usd_price.toFixed()`. */
  function MinAmountDecimals(values: SwapFormValues): nat
    requires values.currency.Some?
  {
    FixedLength(values.currency.value.usdPrice)
  }

  /**
   * The smallest amount a swap may carry: the floor times 1.2, rounded to
   * as many decimals as `usd_price.toFixed()` has characters; 0 when currency,
   * source or destination is missing, or when either layer does not list
   * the currency (the sum is then not a number, and `|| 0` makes it 0).
   */
  function CalculateMinAllowedAmount(values: SwapFormValues, allCurrencies: seq<Currency>): (r: real)
    ensures !HasRoute(values) ==> r == 0.0
    ensures HasRoute(values) && !HasSchedules(values) ==> r == 0.0
    ensures HasRoute(values) && HasSchedules(values) ==>
      var target, decimals := MinAmountMargin * MinAmountBeforeMargin(values, allCurrencies), MinAmountDecimals(values);
      && target - Unit(decimals) / 2.0 < r <= target + Unit(decimals) / 2.0
      && HasDecimals(r, decimals)
  {
    if !HasRoute(values) || !HasSchedules(values) then 0.0
    else
      var target, decimals := MinAmountMargin * MinAmountBeforeMargin(values, allCurrencies), MinAmountDecimals(values);
      RoundDecimals(target, decimals)  // a zero result is 0 under `|| 0` too
  }

  // -----------------------------------------------------------------------
  // Receive amount
  // -----------------------------------------------------------------------

  /** The source is an exchange reached through OAuth2, whose own withdrawal fee is deducted too. */
  predicate FromOAuth2Exchange(values: SwapFormValues) {
    values.from.Some? && values.from.value.isExchange && values.from.value.authorizationFlow == Some(OAuth2Flow)
  }

  /** The amount minus the fee, the refuel and, from an OAuth2 exchange, the exchange fee. */
  function ReceiveBeforeRounding(values: SwapFormValues, allCurrencies: seq<Currency>): real
    requires values.amount.Some?
  {
    var result := values.amount.value - CalculateFee(values) - CalculateRefuelAmount(values, allCurrencies).inSelectedCurrency;
    if FromOAuth2Exchange(values) then result - GetExchangeFee(SelectedAsset(values), values.from) else result
  }

  /** The decimals the receive amount is shown with (`toFixed(undefined)` shows none). */
  function DisplayPrecision(values: SwapFormValues): nat {
    match values.currency
    case Some(c) => c.precision
    case None => 0
  }

  /** The entered amount is a non-zero number no smaller than the minimum. */
  predicate IsAccepted(values: SwapFormValues, allCurrencies: seq<Currency>) {
    values.amount.Some? && values.amount.value != 0.0
    && values.amount.value >= CalculateMinAllowedAmount(values, allCurrencies)
  }

  /**
   * What the user receives: 0 for an amount that is missing, zero or below
   * the minimum; otherwise the amount less every deduction, shown with the
   * currency's precision.
   */
  function CalculateReceiveAmount(values: SwapFormValues, allCurrencies: seq<Currency>): (r: real)
    ensures values.amount.None? || values.amount == Some(0.0) ==> r == 0.0
    ensures values.amount.Some? && values.amount.value < CalculateMinAllowedAmount(values, allCurrencies) ==> r == 0.0
    ensures IsAccepted(values, allCurrencies) ==>
      var exact, precision := ReceiveBeforeRounding(values, allCurrencies), DisplayPrecision(values);
      && (exact >= 0.0 ==> exact - Unit(precision) / 2.0 < r <= exact + Unit(precision) / 2.0)
      && (exact < 0.0 ==> exact - Unit(precision) / 2.0 <= r < exact + Unit(precision) / 2.0)
      && HasDecimals(r, precision)
  {
    if values.amount.None? || values.amount.value == 0.0 then 0.0
    else if values.amount.value >= CalculateMinAllowedAmount(values, allCurrencies) then
      ToFixed(ReceiveBeforeRounding(values, allCurrencies), DisplayPrecision(values))
    else 0.0
  }

  // -----------------------------------------------------------------------
  // Maximum allowed amount
  // -----------------------------------------------------------------------

  /**
   * The `balances` query parameter: absent (or empty), not valid JSON, or
   * parsed into balances keyed by upper-cased asset symbol.
   */
  datatype Balances = NoBalances | Malformed | Parsed(byAsset: map<string, real>)

  /** The destination's withdrawal limit for the currency, 0 when it does not list it. */
  function WithdrawalCeiling(values: SwapFormValues): (ceiling: real)
    requires HasRoute(values)
    ensures var to, asset := values.to.value, values.currency.value.asset;
      if asset in to.networkCurrencies
      then ceiling == to.networkCurrencies[asset].maxWithdrawalAmount
      else ceiling == 0.0
  {
    match DestinationSchedule(values)
    case Some(schedule) => schedule.maxWithdrawalAmount
    case None => 0.0
  }

  /**
   * A passed-in balance of the asset that lowers the ceiling: non-zero and
   * above the minimum (a missing minimum admits nothing).
   */
  predicate QualifyingBalance(byAsset: map<string, real>, asset: string, minAllowedAmount: Option<real>) {
    && asset in byAsset && byAsset[asset] != 0.0
    && minAllowedAmount.Some? && byAsset[asset] > minAllowedAmount.value
  }

  /** A non-zero wallet balance within [minimum, ceiling] (a missing minimum admits nothing). */
  predicate InWalletWindow(walletBalance: Option<real>, minAllowedAmount: Option<real>, ceiling: real) {
    && walletBalance.Some? && walletBalance.value != 0.0
    && minAllowedAmount.Some?
    && minAllowedAmount.value <= walletBalance.value <= ceiling
  }

  /**
   * The largest amount a swap may carry: the destination's withdrawal
   * limit, lowered to a passed-in balance that exceeds the minimum; or,
   * with no balances given, the wallet balance less gas when it lies
   * within [minimum, limit].
   */
  function CalculateMaxAllowedAmount(
    values: SwapFormValues, balances: Balances, walletBalance: Option<real>, gas: real, minAllowedAmount: Option<real>): (r: real)
    ensures !HasRoute(values) ==> r == 0.0
    ensures HasRoute(values) && balances.Malformed? ==> r == WithdrawalCeiling(values)
    ensures HasRoute(values) && !balances.NoBalances? ==> r <= WithdrawalCeiling(values)
    ensures HasRoute(values) && balances.Parsed? ==>
      var asset, ceiling := values.currency.value.asset, WithdrawalCeiling(values);
      if QualifyingBalance(balances.byAsset, asset, minAllowedAmount)
      then r <= ceiling && r <= balances.byAsset[asset] && (r == ceiling || r == balances.byAsset[asset])
      else r == ceiling
    ensures HasRoute(values) && balances.NoBalances? ==>
      if InWalletWindow(walletBalance, minAllowedAmount, WithdrawalCeiling(values))
      then r == walletBalance.value - gas
      else r == WithdrawalCeiling(values)
    ensures HasRoute(values) && gas >= 0.0 ==> r <= WithdrawalCeiling(values)
  {
    if !HasRoute(values) then 0.0
    else
      var asset := values.currency.value.asset;
      var maxAmount := WithdrawalCeiling(values);
      match balances
      case Parsed(byAsset) =>
        if QualifyingBalance(byAsset, asset, minAllowedAmount)
        then (if byAsset[asset] < maxAmount then byAsset[asset] else maxAmount)
        else maxAmount
      case Malformed => maxAmount  // the parse error is swallowed
      case NoBalances =>
        if walletBalance.Some? && walletBalance.value != 0.0
          && minAllowedAmount.Some? && walletBalance.value >= minAllowedAmount.value
          && walletBalance.value <= maxAmount
        then walletBalance.value - gas
        else maxAmount
  }
}

=== FILE: fees_properties.dfy ===
/**
 * Properties that relate several operations of the fee calculator, and
 * worked examples.
 */
module FeeProperties {
  import opened Wrappers
  import opened Numeric
  import opened Models
  import opened Fees

  /** Every fee, minimum deposit and listing fee a layer declares is non-negative. */
  ghost predicate NonNegativeFees(layer: Layer) {
    && (forall a :: a in layer.networkCurrencies ==>
          && layer.networkCurrencies[a].sourceBaseFee >= 0.0
          && layer.networkCurrencies[a].destinationBaseFee >= 0.0
          && layer.networkCurrencies[a].withdrawalFee >= 0.0
          && layer.networkCurrencies[a].depositFee >= 0.0)
    && (forall a :: a in layer.defaultAssets ==>
          layer.defaultAssets[a].withdrawalFee >= 0.0 && layer.defaultAssets[a].minDepositAmount >= 0.0)
    && (forall i :: 0 <= i < |layer.assets| ==> layer.assets[i].withdrawalFee >= 0.0)
  }

  /** Both chosen layers declare non-negative fees. */
  ghost predicate NonNegativeRoute(values: SwapFormValues) {
    && (values.from.Some? ==> NonNegativeFees(values.from.value))
    && (values.to.Some? ==> NonNegativeFees(values.to.value))
  }

  /** With non-negative fee schedules the Layerswap fee is not negative. */
  lemma FeeNonNegative(values: SwapFormValues)
    requires NonNegativeRoute(values)
    ensures CalculateFee(values) >= 0.0
  {
  }

  /** With non-negative fee schedules an exchange's withdrawal fee is not negative. */
  lemma ExchangeFeeNonNegative(asset: Option<string>, layer: Option<Layer>)
    requires layer.Some? ==> NonNegativeFees(layer.value)
    ensures GetExchangeFee(asset, layer) >= 0.0
  {
    if layer.Some? && layer.value.isExchange {
      match FindIndex(layer.value.assets, ListsAsset(asset))
      case None =>
      case Some(i) =>
        assert IsFirstMatch(layer.value.assets, ListsAsset(asset), i);
    }
  }

  /**
   * The minimum covers the fee and the refuel with the 20% margin, up to
   * half a unit of the decimals it is rounded to.
   */
  lemma MinCoversFeeAndRefuel(values: SwapFormValues, allCurrencies: seq<Currency>)
    requires HasRoute(values) && HasSchedules(values) && NonNegativeRoute(values)
    ensures var covered := CalculateFee(values) + CalculateRefuelAmount(values, allCurrencies).inSelectedCurrency;
      CalculateMinAllowedAmount(values, allCurrencies) > MinAmountMargin * covered - Unit(MinAmountDecimals(values)) / 2.0
  {
    var source, destination := SourceSchedule(values).value, DestinationSchedule(values).value;
    assert source.sourceBaseFee >= 0.0 && destination.destinationBaseFee >= 0.0;
    assert CoinbaseWithdrawalFee(values) >= 0.0;
    assert ExchangeMinDeposit(values) >= 0.0;
  }

  /**
   * An accepted amount from a network source (no deposit fee, no exchange
   * fee) leaves at least a fifth of the fee and refuel over, before the
   * receive amount is rounded, up to the rounding of the minimum.
   */
  lemma AcceptedAmountLeavesMargin(values: SwapFormValues, allCurrencies: seq<Currency>)
    requires HasRoute(values) && HasSchedules(values) && NonNegativeRoute(values)
    requires IsAccepted(values, allCurrencies) && !values.from.value.isExchange
    ensures var covered := CalculateFee(values) + CalculateRefuelAmount(values, allCurrencies).inSelectedCurrency;
      ReceiveBeforeRounding(values, allCurrencies) > (MinAmountMargin - 1.0) * covered - Unit(MinAmountDecimals(values)) / 2.0
  {
    MinCoversFeeAndRefuel(values, allCurrencies);
  }

  /**
   * With non-negative fee schedules the user never receives more than the
   * amount they entered, shown with the same precision.
   */
  lemma ReceiveNeverAboveAmount(values: SwapFormValues, allCurrencies: seq<Currency>)
    requires values.amount.Some? && NonNegativeRoute(values)
    ensures CalculateReceiveAmount(values, allCurrencies) <= ToFixed(values.amount.value, DisplayPrecision(values))
      || CalculateReceiveAmount(values, allCurrencies) == 0.0
  {
    if IsAccepted(values, allCurrencies) {
      FeeNonNegative(values);
      ExchangeFeeNonNegative(SelectedAsset(values), values.from);
      var exact := ReceiveBeforeRounding(values, allCurrencies);
      assert exact <= values.amount.value;
      ToFixedMonotone(exact, values.amount.value, DisplayPrecision(values));
    }
  }

  /**
   * The minimum is already rounded to its decimals: rounding it again, as a
   * form that re-applies `roundDecimals` would, leaves it unchanged.
   */
  lemma MinAllowedAmountAlreadyRounded(values: SwapFormValues, allCurrencies: seq<Currency>)
    requires HasRoute(values)
    ensures var min := CalculateMinAllowedAmount(values, allCurrencies);
      RoundDecimals(min, MinAmountDecimals(values)) == min
  {
    if HasSchedules(values) {
      RoundHalfUpIdempotent(MinAmountMargin * MinAmountBeforeMargin(values, allCurrencies), MinAmountDecimals(values));
    }
  }

  /** The receive amount is 0 unless the entered amount is accepted. */
  lemma ReceiveZeroUnlessAccepted(values: SwapFormValues, allCurrencies: seq<Currency>)
    ensures CalculateReceiveAmount(values, allCurrencies) != 0.0 ==> IsAccepted(values, allCurrencies)
  {
  }

  /** Swapping the two addresses does not change whether a transfer is sweepless. */
  lemma SweeplessSymmetric(layer: Layer, a: Option<string>, b: Option<string>)
    ensures CanDoSweeplessTransfer(layer, a, b) == CanDoSweeplessTransfer(layer, b, a)
  {
  }

  // -----------------------------------------------------------------------
  // Worked examples
  // -----------------------------------------------------------------------

  /** A network layer of the given chain type listing ETH with `schedule`. */
  function ExampleNetwork(name: string, layerType: NetworkType, schedule: NetworkCurrency): Layer {
    Layer(name, false, layerType, None, [], map["ETH" := schedule], map[], map[])
  }

  /** Addresses that differ only in case make a transfer from a non-EVM network sweepless. */
  lemma SweeplessExampleIgnoresCase()
    ensures var layer := ExampleNetwork("SOLANA_MAINNET", OtherType("solana"), NetworkCurrency(0.0, 0.0, 0.0, 0.0, 0.0, false));
      CanDoSweeplessTransfer(layer, Some("0xABC"), Some("0xabc"))
  {
    var a, b := "0xABC", "0xabc";
    assert SameIgnoringCase(a, b) by {
      assert LowerChar(a[2]) == LowerChar(b[2]);
    }
  }

  /**
   * From an EVM network the deposit fee of 5 is waived: with zero base fees
   * and a withdrawal fee of 2 the fee is 2.
   */
  lemma FeeExampleEvmWaivesDeposit()
    ensures var schedule := NetworkCurrency(0.0, 0.0, 2.0, 5.0, 1000.0, false);
      var eth := Currency("ETH", 2000.0, 6);
      var source := ExampleNetwork("ETHEREUM_MAINNET", EVM, schedule);
      var destination := ExampleNetwork("ARBITRUM_MAINNET", EVM, schedule);
      CalculateFee(SwapFormValues(Some(eth), Some(source), Some(destination), Some(100.0), false)) == 2.0
  {
  }

  /**
   * 100 units with a fee of 3 and no refuel, at precision 2, leave 97:
   * the minimum is 1.2 times the fee plus the base fees counted again, 6.
   */
  lemma ReceiveExampleAfterFee()
    ensures var schedule := NetworkCurrency(1.0, 1.0, 1.0, 4.0, 1000.0, false);
      var eth := Currency("ETH", 2000.0, 2);
      var source := ExampleNetwork("ETHEREUM_MAINNET", EVM, schedule);
      var destination := ExampleNetwork("ARBITRUM_MAINNET", EVM, schedule);
      var values := SwapFormValues(Some(eth), Some(source), Some(destination), Some(100.0), false);
      && CalculateFee(values) == 3.0
      && CalculateMinAllowedAmount(values, [eth]) == 6.0
      && CalculateReceiveAmount(values, [eth]) == 97.0
  {
    var schedule := NetworkCurrency(1.0, 1.0, 1.0, 4.0, 1000.0, false);
    var eth := Currency("ETH", 2000.0, 2);
    var source := ExampleNetwork("ETHEREUM_MAINNET", EVM, schedule);
    var destination := ExampleNetwork("ARBITRUM_MAINNET", EVM, schedule);
    var values := SwapFormValues(Some(eth), Some(source), Some(destination), Some(100.0), false);
    assert DecimalDigits(2000) == 4;
    assert Pow10(4) == 10000;
    assert Pow10(2) == 100;
    assert MinAmountBeforeMargin(values, [eth]) == 5.0;
    assert RoundAt(6.0, 10000.0) == 6.0;
    assert RoundAt(97.0, 100.0) == 97.0;
  }

  /**
   * A passed-in balance of 5 above a minimum of 1 lowers a withdrawal
   * limit of 10 to 5; without a minimum the limit stays.
   */
  lemma MaxExampleBalanceLowersCeiling()
    ensures var schedule := NetworkCurrency(0.0, 0.0, 0.0, 0.0, 10.0, false);
      var eth := Currency("ETH", 2000.0, 6);
      var network := ExampleNetwork("ETHEREUM_MAINNET", EVM, schedule);
      var values := SwapFormValues(Some(eth), Some(network), Some(network), Some(5.0), false);
      && CalculateMaxAllowedAmount(values, Parsed(map["ETH" := 5.0]), None, 0.0, Some(1.0)) == 5.0
      && CalculateMaxAllowedAmount(values, Parsed(map["ETH" := 5.0]), None, 0.0, None) == 10.0
  {
  }

  /**
   * A source network that does not list the currency makes the minimum 0
   * (the sum is not a number, and `|| 0` makes it 0), yet the refuel of 10
   * is still deducted: an amount of 1 is accepted and gives -9.
   */
  lemma ReceiveExampleMissingSourceSchedule()
    ensures var eth := Currency("ETH", 1.0, 2);
      var source := Layer("ETHEREUM_MAINNET", false, EVM, None, [], map[], map[], map[]);
      var destination := Layer("ARBITRUM_MAINNET", false, EVM, None, [],
        map["ETH" := NetworkCurrency(0.0, 0.0, 0.0, 0.0, 1000.0, true)], map[], map["ETH" := CryptoNetwork("ETH", 10.0)]);
      var values := SwapFormValues(Some(eth), Some(source), Some(destination), Some(1.0), true);
      && CalculateMinAllowedAmount(values, [eth]) == 0.0
      && CalculateRefuelAmount(values, [eth]).inSelectedCurrency == 10.0
      && CalculateReceiveAmount(values, [eth]) == -9.0
  {
    var eth := Currency("ETH", 1.0, 2);
    var source := Layer("ETHEREUM_MAINNET", false, EVM, None, [], map[], map[], map[]);
    var destination := Layer("ARBITRUM_MAINNET", false, EVM, None, [],
      map["ETH" := NetworkCurrency(0.0, 0.0, 0.0, 0.0, 1000.0, true)], map[], map["ETH" := CryptoNetwork("ETH", 10.0)]);
    var values := SwapFormValues(Some(eth), Some(source), Some(destination), Some(1.0), true);
    assert IsFirstMatch([eth], IsCurrency(Some("ETH")), 0);
    assert CalculateRefuelAmount(values, [eth]).inSelectedCurrency == 10.0;
    assert Pow10(2) == 100;
    assert RoundAt(9.0, 100.0) == 9.0;
  }
}

=== FILE: models.dfy ===
/**
 * The records the fee calculator reads: layers (networks and exchanges),
 * their per-currency fee schedules, currencies with prices, and the swap
 * form. Also the lookups the calculator makes over them: the settings
 * helpers `GetNetworkCurrency`, `GetDefaultAsset` and `GetDefaultNetwork`,
 * and JavaScript's `Array.prototype.find`.
 */
module Models {
  import opened Wrappers

  /** The kind of chain a network layer runs. */
  datatype NetworkType = EVM | Starknet | OtherType(name: string)

  /** An asset listed on a layer: its symbol, withdrawal fee and minimum deposit. */
  datatype LayerAsset = LayerAsset(asset: string, withdrawalFee: real, minDepositAmount: real)

  /** The fee schedule of one currency on one layer. */
  datatype NetworkCurrency = NetworkCurrency(
    sourceBaseFee: real,
    destinationBaseFee: real,
    withdrawalFee: real,
    depositFee: real,
    maxWithdrawalAmount: real,
    isRefuelEnabled: bool)

  /** The network a currency travels over: its native currency and refuel budget in USD. */
  datatype CryptoNetwork = CryptoNetwork(nativeCurrency: string, refuelAmountInUsd: real)

  /**
   * A source or destination of a swap: a network or a centralised exchange.
   * `assets` is the layer's own asset list; the three maps, keyed by asset
   * symbol, hold what the settings helpers answer for this layer.
   */
  datatype Layer = Layer(
    internalName: string,
    isExchange: bool,
    layerType: NetworkType,
    authorizationFlow: Option<string>,
    assets: seq<LayerAsset>,
    networkCurrencies: map<string, NetworkCurrency>,
    defaultAssets: map<string, LayerAsset>,
    defaultNetworks: map<string, CryptoNetwork>)

  /** A currency with its USD price and display precision. */
  datatype Currency = Currency(asset: string, usdPrice: real, precision: nat)

  /**
   * The swap form. An absent field is `None`; `amount` is `None` when the
   * entered text is not a number.
   */
  datatype SwapFormValues = SwapFormValues(
    currency: Option<Currency>,
    from: Option<Layer>,
    to: Option<Layer>,
    amount: Option<real>,
    refuel: bool)

  /** Currency, source and destination are all chosen. */
  predicate HasRoute(values: SwapFormValues) {
    values.currency.Some? && values.from.Some? && values.to.Some?
  }

  /** The symbol of the chosen currency (`values.currency?.asset`). */
  function SelectedAsset(values: SwapFormValues): (asset: Option<string>)
    ensures asset.Some? <==> values.currency.Some?
  {
    match values.currency
    case Some(c) => Some(c.asset)
    case None => None
  }

  // -----------------------------------------------------------------------
  // Settings helpers
  // -----------------------------------------------------------------------

  /** `GetNetworkCurrency(layer, asset)`: the layer's fee schedule for the asset, if any. */
  function GetNetworkCurrency(layer: Layer, asset: string): (r: Option<NetworkCurrency>)
    ensures r.Some? <==> asset in layer.networkCurrencies
    ensures r.Some? ==> r.value == layer.networkCurrencies[asset]
  {
    if asset in layer.networkCurrencies then Some(layer.networkCurrencies[asset]) else None
  }

  /** `GetDefaultAsset(layer, asset)`: the layer's default listing of the asset, if any. */
  function GetDefaultAsset(layer: Layer, asset: string): (r: Option<LayerAsset>)
    ensures r.Some? <==> asset in layer.defaultAssets
    ensures r.Some? ==> r.value == layer.defaultAssets[asset]
  {
    if asset in layer.defaultAssets then Some(layer.defaultAssets[asset]) else None
  }

  /** `GetDefaultNetwork(layer, asset)`: the network the asset travels over on the layer, if any. */
  function GetDefaultNetwork(layer: Layer, asset: string): (r: Option<CryptoNetwork>)
    ensures r.Some? <==> asset in layer.defaultNetworks
    ensures r.Some? ==> r.value == layer.defaultNetworks[asset]
  {
    if asset in layer.defaultNetworks then Some(layer.defaultNetworks[asset]) else None
  }

  // -----------------------------------------------------------------------
  // Array.prototype.find
  // -----------------------------------------------------------------------

  /** i is the first position of xs whose element satisfies p. */
  predicate IsFirstMatch<T>(xs: seq<T>, p: T -> bool, i: int) {
    0 <= i < |xs| && p(xs[i]) && forall j :: 0 <= j < i ==> !p(xs[j])
  }

  /** The position `xs.find(p)` stops at: the first match, or none when nothing matches. */
  function FindIndex<T>(xs: seq<T>, p: T -> bool): (r: Option<nat>)
    ensures r.Some? ==> IsFirstMatch(xs, p, r.value)
    ensures r.None? ==> forall j :: 0 <= j < |xs| ==> !p(xs[j])
  {
    if |xs| == 0 then None
    else if p(xs[0]) then Some(0)
    else match FindIndex(xs[1..], p)
      case None => None
      case Some(i) => Some(i + 1)
  }

  /** `xs.find(p)`: the first element that satisfies p, if any. */
  function Find<T>(xs: seq<T>, p: T -> bool): (r: Option<T>)
    ensures r.None? <==> forall j :: 0 <= j < |xs| ==> !p(xs[j])
    ensures r.Some? ==> p(r.value)
    ensures forall i :: IsFirstMatch(xs, p, i) ==> r == Some(xs[i])
  {
    match FindIndex(xs, p)
    case None => None
    case Some(i) => Some(xs[i])
  }

  /** The test `ec => ec.asset === asset` (never true for an absent asset). */
  function ListsAsset(asset: Option<string>): LayerAsset -> bool {
    (a: LayerAsset) => Some(a.asset) == asset
  }

  /** The test `c => c.asset == symbol` (never true for an absent symbol). */
  function IsCurrency(symbol: Option<string>): Currency -> bool {
    (c: Currency) => Some(c.asset) == symbol
  }
}

=== FILE: numeric.dfy ===
/**
 * The numeric primitives the fee calculator relies on, over exact reals:
 * `Math.ceil`, `Number(x.toFixed(d))`, the `roundDecimals` helper and the
 * length of `x.toFixed()`.
 */
module Numeric {

  /** 10 to the power n. */
  function Pow10(n: nat): (p: nat)
    ensures p >= 1
  {
    if n == 0 then 1 else 10 * Pow10(n - 1)
  }

  /** The size of one unit in the last of `digits` decimal places. */
  function Unit(digits: nat): (u: real)
    ensures 0.0 < u <= 1.0
  {
    1.0 / Pow10(digits) as real
  }

  /** True when y is a whole number. */
  predicate IsWhole(y: real) {
    y.Floor as real == y
  }

  /** True when x is a whole multiple of 1/scale. */
  predicate IsWholeAt(x: real, scale: real) {
    IsWhole(x * scale)
  }

  /** True when x has at most `digits` decimal places. */
  predicate HasDecimals(x: real, digits: nat) {
    IsWholeAt(x, Pow10(digits) as real)
  }

  /** JavaScript's `Math.ceil`: the least integer not below x. */
  function Ceil(x: real): (n: int)
    ensures x <= n as real < x + 1.0
  {
    if x.Floor as real == x then x.Floor else x.Floor + 1
  }

  /** Rounding to the nearest multiple of 1/scale, halves upwards. */
  function RoundAt(x: real, scale: real): real
    requires scale > 0.0
  {
    ((x * scale + 0.5).Floor as real) / scale
  }

  /** Rounding to `digits` decimal places, halves upwards. */
  function RoundHalfUp(x: real, digits: nat): real
  {
    RoundAt(x, Pow10(digits) as real)
  }

  /**
   * `Number(x.toFixed(digits))`: the magnitude of x rounded to `digits`
   * decimals with halves away from zero, and the sign put back. The result
   * lies within half a unit of x, a tie going to the larger magnitude, and
   * has at most `digits` decimals.
   */
  function ToFixed(x: real, digits: nat): (r: real)
    ensures x >= 0.0 ==> x - Unit(digits) / 2.0 < r <= x + Unit(digits) / 2.0
    ensures x < 0.0 ==> x - Unit(digits) / 2.0 <= r < x + Unit(digits) / 2.0
    ensures HasDecimals(r, digits)
  {
    if x < 0.0 then
      var magnitude := RoundHalfUp(-x, digits);
      RoundHalfUpError(-x, digits);
      RoundHalfUpHasDecimals(-x, digits);
      NegatedWholeAt(magnitude, Pow10(digits) as real);
      -magnitude
    else
      RoundHalfUpError(x, digits);
      RoundHalfUpHasDecimals(x, digits);
      RoundHalfUp(x, digits)
  }

  /**
   * The `roundDecimals(value, decimals)` helper: rounding to `decimals`
   * places, halves upwards (the `Math.round` convention). The result lies
   * within half a unit of x and has at most `decimals` decimals.
   */
  function RoundDecimals(x: real, decimals: nat): (r: real)
    ensures x - Unit(decimals) / 2.0 < r <= x + Unit(decimals) / 2.0
    ensures HasDecimals(r, decimals)
  {
    RoundHalfUpError(x, decimals);
    RoundHalfUpHasDecimals(x, decimals);
    RoundHalfUp(x, decimals)
  }

  /** The number of decimal digits needed to write n ("0" has one). */
  function DecimalDigits(n: nat): (k: nat)
    ensures k >= 1
  {
    if n < 10 then 1 else 1 + DecimalDigits(n / 10)
  }

  /**
   * `x.toFixed().length`: a minus sign for a negative x, then the digits of
   * |x| rounded to an integer. Without the sign, the length is the number
   * of digits k of that integer n: 10^(k-1) <= n < 10^k, or k == 1 for "0".
   */
  function FixedLength(x: real): (k: nat)
    ensures var sign, n := (if x < 0.0 then 1 else 0), ((if x < 0.0 then -x else x) + 0.5).Floor;
      && k >= sign + 1
      && (n == 0 ==> k == sign + 1)
      && (n >= 1 ==> Pow10(k - sign - 1) <= n < Pow10(k - sign))
  {
    var magnitude := if x < 0.0 then -x else x;
    var n := (magnitude + 0.5).Floor;
    if n >= 1 then DecimalDigitsBounds(n); (if x < 0.0 then 1 else 0) + DecimalDigits(n)
    else (if x < 0.0 then 1 else 0) + DecimalDigits(n)
  }

  // ---------------------------------------------------------------------
  // Properties of the rounding functions
  // ---------------------------------------------------------------------

  /** RoundAt spelled out, for the places where the solver does not unfold it by itself. */
  lemma RoundAtUnfold(x: real, scale: real)
    requires scale > 0.0
    ensures RoundAt(x, scale) == ((x * scale + 0.5).Floor as real) / scale
  {
  }

  /** RoundAt lands within half a step of its argument. */
  lemma RoundAtError(x: real, scale: real)
    requires scale > 0.0
    ensures x - 0.5 / scale < RoundAt(x, scale) <= x + 0.5 / scale
  {
    var n := (x * scale + 0.5).Floor as real;
    assert x * scale - 0.5 < n <= x * scale + 0.5;
    assert (x * scale - 0.5) / scale == x - 0.5 / scale;
    assert (x * scale + 0.5) / scale == x + 0.5 / scale;
  }

  /** RoundAt yields a whole number of steps. */
  lemma RoundAtWhole(x: real, scale: real)
    requires scale > 0.0
    ensures IsWholeAt(RoundAt(x, scale), scale)
  {
    var n := (x * scale + 0.5).Floor;
    assert RoundAt(x, scale) == n as real / scale;
    assert (n as real / scale) * scale == n as real;
    assert RoundAt(x, scale) * scale == n as real;
    assert (n as real).Floor == n;
  }

  /** RoundAt preserves order. */
  lemma RoundAtMonotone(x: real, y: real, scale: real)
    requires scale > 0.0 && x <= y
    ensures RoundAt(x, scale) <= RoundAt(y, scale)
  {
    assert x * scale <= y * scale;
    var m, n := (x * scale + 0.5).Floor, (y * scale + 0.5).Floor;
    assert m <= n;
    assert m as real / scale <= n as real / scale;
  }

  /** RoundAt of a value that is not negative is not negative. */
  lemma RoundAtNonNegative(x: real, scale: real)
    requires scale > 0.0 && x >= 0.0
    ensures RoundAt(x, scale) >= 0.0
  {
    assert x * scale >= 0.0;
    var n := (x * scale + 0.5).Floor as real;
    assert n >= 0.0;
    assert n / scale >= 0.0;
  }

  /** Rounding a value that is already a whole number of steps changes nothing. */
  lemma RoundAtIdempotent(x: real, scale: real)
    requires scale > 0.0
    ensures RoundAt(RoundAt(x, scale), scale) == RoundAt(x, scale)
  {
    var r := RoundAt(x, scale);
    var n := (x * scale + 0.5).Floor;
    assert r * scale == n as real by {
      assert (n as real / scale) * scale == n as real;
    }
    assert (r * scale + 0.5).Floor == n;
    RoundAtUnfold(r, scale);
  }

  /** RoundHalfUp lands within half a unit of its argument. */
  lemma RoundHalfUpError(x: real, digits: nat)
    ensures x - Unit(digits) / 2.0 < RoundHalfUp(x, digits) <= x + Unit(digits) / 2.0
  {
    var p := Pow10(digits) as real;
    RoundAtError(x, p);
    assert 0.5 / p == Unit(digits) / 2.0;
  }

  /** The result of RoundHalfUp has at most `digits` decimals. */
  lemma RoundHalfUpHasDecimals(x: real, digits: nat)
    ensures HasDecimals(RoundHalfUp(x, digits), digits)
  {
    RoundAtWhole(x, Pow10(digits) as real);
  }

  /** Rounding an already rounded value changes nothing. */
  lemma RoundHalfUpIdempotent(x: real, digits: nat)
    ensures RoundHalfUp(RoundHalfUp(x, digits), digits) == RoundHalfUp(x, digits)
  {
    RoundAtIdempotent(x, Pow10(digits) as real);
  }

  /** RoundHalfUp preserves order. */
  lemma RoundHalfUpMonotone(x: real, y: real, digits: nat)
    requires x <= y
    ensures RoundHalfUp(x, digits) <= RoundHalfUp(y, digits)
  {
    RoundAtMonotone(x, y, Pow10(digits) as real);
  }

  /** RoundHalfUp of a value that is not negative is not negative. */
  lemma RoundHalfUpNonNegative(x: real, digits: nat)
    requires x >= 0.0
    ensures RoundHalfUp(x, digits) >= 0.0
  {
    RoundAtNonNegative(x, Pow10(digits) as real);
  }

  /** The negation of a whole multiple of 1/scale is one too. */
  lemma NegatedWholeAt(x: real, scale: real)
    requires IsWholeAt(x, scale)
    ensures IsWholeAt(-x, scale)
  {
    var n := (x * scale).Floor;
    assert (-x) * scale == -(n as real);
    assert (-(n as real)).Floor == -n;
  }

  /** ToFixed preserves order. */
  lemma ToFixedMonotone(x: real, y: real, digits: nat)
    requires x <= y
    ensures ToFixed(x, digits) <= ToFixed(y, digits)
  {
    if y < 0.0 {
      RoundHalfUpMonotone(-y, -x, digits);
    } else if x < 0.0 {
      RoundHalfUpNonNegative(-x, digits);
      RoundHalfUpNonNegative(y, digits);
    } else {
      RoundHalfUpMonotone(x, y, digits);
    }
  }

  /** A positive n has DecimalDigits(n) digits: 10^(k-1) <= n < 10^k. */
  lemma {:induction false} DecimalDigitsBounds(n: nat)
    requires n >= 1
    ensures Pow10(DecimalDigits(n) - 1) <= n < Pow10(DecimalDigits(n))
  {
    if n >= 10 {
      var m := n / 10;
      DecimalDigitsBounds(m);
      var k := DecimalDigits(m);
      assert DecimalDigits(n) == k + 1;
      assert Pow10(k) == 10 * Pow10(k - 1);
      assert Pow10(k + 1) == 10 * Pow10(k);
      assert m + 1 <= Pow10(k);
      assert n < 10 * (m + 1);
    }
  }
}

=== FILE: wrappers.dfy ===
/** An optional value: the model's stand-in for JavaScript's `undefined`. */
module Wrappers {

  datatype Option<+T> = None | Some(value: T)
}
